=== FILE: README.md ===
# Release-version and repository-name helpers, modelled in Dafny

This project models the two pieces of real logic in a set of Azure
Pipelines helper scripts:

- `get_release_version.py` computes the next release of a library. It reads
  the targeted `major.minor` line from the `[version] target` setting. It
  lists the remote tags with `git ls-remote --tags` and pulls every
  `refs/tags/v<version>` out of that text. It parses each candidate as a
  PEP 440 version and keeps the highest patch on the targeted line, or -1
  when there is none. It then prints
  `##vso[task.setvariable variable=RELEASE_VERSION]major.minor.(patch+1)`.
- `get_repo_name.py` runs `git remote show origin`. It takes the first
  `/<name>` that is followed by a newline, or by any non-newline character,
  `git` and a newline (so `.git` as well as `xgit`), and
  prints `##vso[task.setvariable variable=REPO_NAME]<name>`.

Everything is written as pure functions over `string` and `seq<nat>`. A
subprocess becomes a `GitOutput` value: its exit status, standard output
and standard error. Python exceptions become `Failure` values of `Result`:
`RuntimeError`, `ValueError` and `IndexError`.

Modules:

- `Wrappers`: `Option` and `Result`.
- `Text`: character classes and Python's `str.split`, `int()` and `str()`
  on integers.
- `Script`: what the two scripts share. This is the exception type, the
  captured `git` result, the failure message, and the `##vso` logging
  command.
- `TargetConfig`: reading the target line.
- `GitTags`: `REGEX_VERSIONS_GIT.findall` and the exit-status check.
- `PatchResolver`: the scan for the latest patch. It takes the version
  parser as a parameter.
- `ReleaseParser`: a concrete parser for the plain `[v]N(.N)*` versions.
- `ReleaseVersion`: `main` of the release script.
- `ReleaseScenarios`: small concrete runs.
- `RepoName`: the repository-name script.

The version parser is a parameter of type `string -> Option<seq<nat>>`.
`None` means `packaging` rejects the string, or gives a legacy version
whose `release` is `None`. `Some(r)` is the release segment. The scan keeps
two behaviours of the code:

- The patch is `release[-1]`, the last number. A tag `1.4` therefore counts
  as patch 4 of line 1.4, and `1.4.2.7` counts as patch 7.
- A release with a single number makes `release[1]` raise `IndexError`,
  which nothing catches. The whole run aborts, wherever that tag is listed.

For the repository name, the regular expression
`\/(?P<repo>[\w-]+)(.git)?\n` is modelled as a scan. Find the leftmost
`/`, then the longest run of `[\w-]` after it. That run must be followed by
a newline, or by one non-newline character, then `git`, then a newline.
`PatternMatch` states the regular expression's own meaning: any length of
the group, with or without the optional part. `PatternMatchesIffRun` and
`PatternWithinRun` prove that the scan matches exactly where the pattern
does. They also prove that the longest run, the choice backtracking tries
first, is always one that matches.

Three further facts about the code shape the model:

- Tags are not filtered by their number of components. Two-number tags
  count through `release[-1]`, and one-number tags abort the run.
- `communicate(timeout=30)` raises `TimeoutExpired` when `git` hangs. That
  exception is not the `RuntimeError` of a failing `git`, and it is not
  modelled (see below).
- The pipeline-variable syntax is hard-coded as Azure's
  `##vso[task.setvariable variable=NAME]value`.

## Model

| member | source | states |
|---|---|---|
| Text.Split | get_release_version.py:170 | `str.split('.')` gives at least one piece. No piece contains the separator. There is exactly one piece when the string has no separator. Joining the pieces with the separator gives back the string. |
| Text.SplitJoin | get_release_version.py:170 | Splitting undoes joining when no piece contains the separator. |
| Text.ParseInt | get_release_version.py:173 | `int()` on ASCII decimal text, leading zeros allowed. Digits alone give their value, so `01` is 1. `+` then digits gives the value, and `-` then digits gives its negation. An accepted text is always one of these three forms. Everything else, such as `1-2`, `+-1` or `--5`, is rejected, which line 174 turns into the `ValueError`. |
| Text.IntToString | get_release_version.py:231 | The f-string rendering is canonical. It starts with `-` exactly when the number is negative. After that come the digits of the magnitude, non-empty and with no leading zero, and they denote the magnitude. |
| Text.ParseIntRoundTrip | get_release_version.py:173 | Reading the rendering of any integer `n` back gives `n`. This links the f-string rendering at line 231 to `int()`. It holds for integers of every length, because the model has no digit limit (see "Left out"). |
| TargetConfig.ParseTarget | get_release_version.py:169-177 | Every failure is `ValueError` with the fixed "not major.minor format" message. This covers both the missing-component `IndexError` and the non-integer `ValueError`. A success needs a `.` in the target. |
| TargetConfig.ParseTargetSound | get_release_version.py:170-179 | An accepted target is `a.b` followed by nothing or by further `.`-separated text. `a` reads as the returned major and `b` as the returned minor. |
| TargetConfig.ParseTargetComplete | get_release_version.py:170-173 | Every target of the form `a.b[.rest]`, with `a` and `b` integer literals, is accepted with exactly those two numbers. Components after the second are ignored. |
| TargetConfig.ParseTargetNeedsTwoComponents | get_release_version.py:172-177 | A target without a `.` is rejected with `ValueError`. |
| GitTags.NonSpaceRun | get_release_version.py:13 | Greedy `[\S]+` reaches exactly to the first whitespace character (Python's `str.isspace` set) or to the end. |
| GitTags.FindVersions | get_release_version.py:13 | Every extracted candidate is non-empty and contains no whitespace. There are at most as many as the text has room for, one per `refs/tags/v` plus one character. |
| GitTags.ListVersions | get_release_version.py:46-49 | A non-zero `git` exit fails with `RuntimeError` carrying `git`'s standard error, and nothing is extracted. An exit of 0 always succeeds, and the result is exactly the `findall` extraction of the standard output. |
| GitTags.SkipUnmarked | get_release_version.py:13 | Text without an `r` yields no candidate and does not change what follows it. |
| GitTags.MarkerThenToken | get_release_version.py:13 | `refs/tags/v` followed by a non-whitespace run that ends at whitespace or at the end yields exactly that run. Scanning then resumes after it. |
| GitTags.NonVersionTagSkipped | get_release_version.py:13 | The line of a tag not named `v…`, such as `refs/tags/latest`, yields nothing, as long as the name does not itself contain `refs/tags/v`. The scan resumes at the next line. |
| GitTags.TagLine | get_release_version.py:13 | One tag line yields the name without its `v` for a version tag, and nothing for any other tag. |
| GitTags.ExtractFromLsRemote | get_release_version.py:46-49 | For any `git ls-remote --tags` listing, the extraction returns the version of every `v…` tag, in output order, and skips every other tag. Peeled lines such as `v1.0^{}` are version tags here, and the parser then rejects them. |
| PatchResolver.ScanFrom | get_release_version.py:192-211 | From a running maximum `latest`, the scan aborts with `IndexError` exactly when some tag parses to a release with fewer than two numbers. Otherwise it returns a value at least `latest`, at least every on-line tag's last number, and equal to `latest` or to one such number. |
| PatchResolver.LatestTaggedPatch | get_release_version.py:191-213 | The result is -1 exactly when no tag is on the `major.minor` line. Otherwise it is the largest last-release-number among the tags on that line. It is `IndexError` exactly when a parsed release lacks a minor number. |
| PatchResolver.OnlyRelevantTagsMatter | get_release_version.py:192-206 | Two tag lists with the same relevant tags give the same outcome. A relevant tag is one that aborts or one on the targeted line. |
| PatchResolver.OrderDoesNotMatter | get_release_version.py:192-213 | Permuting the tag list does not change the outcome. |
| PatchResolver.IrrelevantTagDoesNotMatter | get_release_version.py:193-206 | Inserting an unparseable tag, or a tag of another `major.minor` line, anywhere changes nothing, however large its patch. |
| PatchResolver.AppendTagOnLine | get_release_version.py:208-211 | One more tag on the line raises the result to its patch if that patch is higher. Otherwise the result is unchanged. |
| PatchResolver.PatchIsLastComponent | get_release_version.py:209 | A tag on the line contributes its last release number, whatever the release's length. |
| PatchResolver.ShortReleaseAborts | get_release_version.py:201-202 | A tag whose release has fewer than two numbers aborts the run with `IndexError`, wherever it is listed. |
| ReleaseParser.ParseRelease | get_release_version.py:194 | The stand-in for `version.parse(...).release` accepts a text exactly when, after one optional leading `v` or `V`, every `.`-separated piece is a decimal numeral. An accepted release has at least one number. |
| ReleaseParser.ParseFormatRelease | get_release_version.py:194 | Parsing the dotted text of a release gives that release back. |
| ReleaseParser.NonNumericPieceRejected | get_release_version.py:193-196 | A version string with a piece that is not a decimal number, such as `1.4.x`, is rejected, and the scan skips it. |
| ReleaseVersion.ReleaseString | get_release_version.py:231 | The f-string splits at `.` into exactly the three numbers' decimal texts. |
| ReleaseVersion.ReleaseLine | get_release_version.py:244 | The printed line is the logging command that sets `RELEASE_VERSION`, then the version, then a newline. |
| ReleaseVersion.ReleaseMain | get_release_version.py:216-244 | A malformed target ends the run with `ValueError` before `git` is consulted. A failing `git` ends it with `RuntimeError`. With a good target and exit 0, the run fails exactly when some extracted tag parses to a one-number release, and then with `IndexError`. This assumes the file updater (line 235) and the `setup.cfg` write (lines 238-241) succeed. |
| ReleaseVersion.ReleaseMainSound | get_release_version.py:222-244 | A successful run prints `major.minor.patch` for the configured line. `patch` is one more than the highest patch tagged on that line, so it is above every such patch, and it is 0 when the line has no tags. As for `ReleaseMain`, the file updater and the `setup.cfg` write are taken to succeed. |
| ReleaseVersion.ReleaseStringRoundTrip | get_release_version.py:228-231 | The release string splits into exactly its three rendered numbers. Read back as a target, it names the same `major.minor`. |
| ReleaseVersion.ReleaseStringParses | get_release_version.py:231 | A release string of natural numbers parses to the release `[major, minor, patch]`. |
| ReleaseVersion.NextRunAdvances | get_release_version.py:191-213 | With the plain-release parser, appending the announced release `major.minor.(latest+1)` to the tags makes the resolver return `latest + 1`. |
| ReleaseVersion.NextRunAnnouncesNext | get_release_version.py:216-244 | Two whole runs with the plain-release parser. The first prints the line for `major.minor.(latest+1)`. When the second `git` listing is the first one plus that release, the second run prints the line for `major.minor.(latest+2)`. |
| ReleaseVersion.ReleaseMainFromParts | get_release_version.py:222-244 | A run whose target reads as `major.minor`, whose `git` exits 0 and whose tags give latest patch `latest` prints the line for `major.minor.(latest+1)`. |
| ReleaseScenarios.PlainParserReadsTags | get_release_version.py:194 | The plain-release parser reads every tag of the scenarios below as PEP 440 does, so each scenario holds for it. |
| ReleaseScenarios.HighestPatchOnLine | get_release_version.py:182-213 | Tags `1.4.0`, `1.4.2`, `1.4.1`, `2.0.0` with target 1.4 give latest patch 2. |
| ReleaseScenarios.ListedTags | get_release_version.py:49 | A `git ls-remote` listing of four version tags and a tag `latest` yields the four versions in order. `latest` is skipped. |
| ReleaseScenarios.NextPatchFromGitOutput | get_release_version.py:222-244 | From `git` output listing those tags, the run prints `##vso[task.setvariable variable=RELEASE_VERSION]1.4.3`. |
| ReleaseScenarios.FreshLine | get_release_version.py:191-231 | From `git` output listing only tags of line 1.4, target 2.0 prints the `RELEASE_VERSION` line for `2.0.0`, because the latest patch stays -1. |
| ReleaseScenarios.MalformedTagsSkipped | get_release_version.py:193-231 | From `git` output listing `not-a-version`, `1.4.x` and `1.4.5`, target 1.4 prints the line for `1.4.6`. The first two tags are skipped. |
| ReleaseScenarios.TwoComponentTagContributesMinor | get_release_version.py:209 | A tag `1.4` counts as patch 4 and outranks `1.4.2`. |
| ReleaseScenarios.FourComponentTagContributesLast | get_release_version.py:209 | A tag `1.4.2.7` counts as patch 7. |
| ReleaseScenarios.OneComponentTagAborts | get_release_version.py:201-202 | A tag `7` aborts the run with `IndexError`, even after a valid tag. |
| ReleaseScenarios.GitFailureAborts | get_release_version.py:46-47 | A non-zero `git` exit ends the run with `RuntimeError` and nothing is printed. |
| Script.GitFailureMessage | get_release_version.py:47 | The `RuntimeError` message is the fixed lead text, then `git`'s standard error verbatim, then a closing quote. `get_repo_name.py:28` raises the same message. |
| RepoName.NameRun | get_repo_name.py:6 | Greedy `[\w-]+` reaches exactly to the first character outside the class. |
| RepoName.PatternWithinRun | get_repo_name.py:6 | No way of matching the pattern captures more than the longest run of `[\w-]`. |
| RepoName.PatternMatchesIffRun | get_repo_name.py:6 | The pattern matches at a position exactly when the scan does. When it does, capturing the whole longest run is itself a match, the one backtracking tries first. |
| RepoName.FirstMatchFrom | get_repo_name.py:32 | Returns the leftmost matching position at or after the start, with no match before it. Returns none exactly when nothing matches. |
| RepoName.CapturedName | get_repo_name.py:6 | The captured name is non-empty and all `[\w-]`. It comes right after the `/`. It is followed by a newline, or by one non-newline character, `git` and a newline. The name is the whole run: the character after it is outside `[\w-]`, so for `/repo-git\n` the name is `repo-git`. |
| RepoName.RepoNameOf | get_repo_name.py:32 | `findall(...)[0][0]` is the name captured at the leftmost match. With no match it raises `IndexError`. |
| RepoName.GetRepoName | get_repo_name.py:27-34 | A failing `git` raises `RuntimeError` and prints nothing. Otherwise the script echoes `git`'s output. It then either prints exactly `##vso[task.setvariable variable=REPO_NAME]<name>`, or raises `IndexError` without that line. |
| RepoName.NameBeforeDotGit | get_repo_name.py:6 | `…/name.git` and a newline, with no `/` earlier, yields `name`. The `.git` is never part of it. |
| RepoName.NameBeforeNewline | get_repo_name.py:6 | `…/name` directly followed by a newline, with no `/` earlier, yields `name`. |

## Left out

- Running the subprocesses, the 30-second `communicate` timeout (which raises `TimeoutExpired`) and the bytes-to-text decoding (get_release_version.py:33-44, get_repo_name.py:14-25) are I/O. The model starts from the captured exit status and text.
- Reading and writing `setup.cfg` with `configparser`, including the `KeyError` when `[version] target` is missing, and the `PublishLanguage` environment lookup, are configuration I/O. The target string is a parameter. `sys.stderr.write` of the error message is output only; the message is carried in the `ValueError`.
- The language dispatch tables map every language to the same `git` lister, so they are not modelled. The file updaters `update_python_files`, `update_rust_files`, `update_elixir_files` and `update_go_files` are file writes and `toml` calls, and are also not modelled. `update_elixir_files` opens `mix.exs` with mode `"rw"`, which `open` rejects with `ValueError` before anything is read (get_release_version.py:107). So with `PublishLanguage=ELIXIR`, `main` always raises at line 235 and never prints the release line.
- ReleaseVersion.ReleaseMain: assumes the file updater (line 235) and the `setup.cfg` write (lines 238-241) succeed. A failure there, including the Elixir updater's `ValueError`, is not among the modelled outcomes. The same holds for `ReleaseVersion.ReleaseMainSound`.
- GitTags.ExtractFromLsRemote: covers tags whose name does not start with `v` only when the name does not itself contain `refs/tags/v`. For such a name, the pattern would capture from inside it. Tag names are also taken to be free of whitespace. `git` allows names with non-ASCII whitespace such as U+00A0, and for those `[\S]+` stops at that character.
- ReleaseVersion.NextRunAnnouncesNext: stated for a non-negative `major.minor`. A negative target renders with a `-`, which the plain-release parser rejects, so the announced release would not be read back at all.
- The commented-out PyPI and Docker Hub listers are dead code that would use the network.
- The coverage checks, the protobuf documentation generator and the service-name export are other scripts. They are XML parsing with a floating-point threshold, `protoc` plumbing, and a configuration lookup.
- PatchResolver.LatestTaggedPatch: the parser is a parameter, not PEP 440 itself. `packaging.version` is a foreign library.
- ReleaseParser.ParseRelease: accepts only `[vV]N(.N)*`. PEP 440 also accepts pre-, post- and dev-releases, epochs, local parts and surrounding whitespace, which this parser rejects. The scenarios are stated for every parser that reads their tags as PEP 440 does. `ReleaseScenarios.PlainParserReadsTags` proves that the plain parser is one of them.
- Text.ParseInt: Python's `int()` also accepts surrounding whitespace, `_` separators and non-ASCII decimal digits. Only an optional sign and ASCII digits are modelled. Recent Python releases (3.11 and later, and security releases of 3.7-3.10) also refuse to convert between `int` and `str` beyond 4300 digits, raising `ValueError`. The model has no such limit. So `ParseTarget` accepts a target whose component has more than 4300 digits, where line 173 would raise and the script would report the fixed `ValueError`. `Text.ParseIntRoundTrip` likewise holds only up to that length in Python. A tag with such a number would make `packaging` raise an uncaught `ValueError`, which the `None`/`Some` parser parameter cannot express.
- RepoName.IsNameChar: `\w` is matched on ASCII letters, digits and `_` only. Python's Unicode letters and digits are not modelled.
- Running the resolver twice on the same tags gives the same result because it is a pure function. There is no separate lemma for this.

=== FILE: git_tags.dfy ===
/** Pulling candidate version strings out of `git ls-remote --tags`:
    the `REGEX_VERSIONS_GIT.findall` step of `list_versions_git` in
    `get_release_version.py`. The subprocess itself is a parameter. */
module GitTags {
  import opened Wrappers
  import opened Text
  import opened Script

  /** The literal part of `refs/tags/v(?P<version>[\S]+)`. */
  const TagMarker: string := "refs/tags/v"

  /** A non-empty run of non-whitespace: what `[\S]+` can capture. */
  predicate IsToken(v: string) {
    && 1 <= |v|
    && forall k :: 0 <= k < |v| ==> !IsSpace(v[k])
  }

  /** How far greedy `[\S]+` reaches from the front of `s`. */
  function NonSpaceRun(s: string): (n: nat)
    ensures n <= |s|
    ensures forall k :: 0 <= k < n ==> !IsSpace(s[k])
    ensures n < |s| ==> IsSpace(s[n])
  {
    if |s| == 0 || IsSpace(s[0]) then 0 else 1 + NonSpaceRun(s[1..])
  }

  /** The pattern matches at the front of `s`: the marker, then at least
      one non-whitespace character. */
  predicate MarkerMatchesHere(s: string) {
    && |s| > |TagMarker|
    && s[..|TagMarker|] == TagMarker
    && !IsSpace(s[|TagMarker|])
  }

  /** `REGEX_VERSIONS_GIT.findall(s)`: scan left to right; where the pattern
      matches, capture the whole non-whitespace run after the marker and
      resume after it, otherwise move on by one character. */
  function FindVersions(s: string): (versions: seq<string>)
    ensures forall k :: 0 <= k < |versions| ==> IsToken(versions[k])
    ensures |versions| <= |s| / (|TagMarker| + 1)
    decreases |s|
  {
    if |s| == 0 then []
    else if MarkerMatchesHere(s) then
      var tail := s[|TagMarker|..];
      var n := NonSpaceRun(tail);
      [tail[..n]] + FindVersions(tail[n..])
    else
      FindVersions(s[1..])
  }

  /** `list_versions_git` after the subprocess returns: a non-zero exit
      raises before anything is extracted. */
  function ListVersions(git: GitOutput): (r: Result<seq<string>, Error>)
    ensures r.Failure? <==> git.exitCode != 0
    ensures r.Failure? ==> r.error == RuntimeError(GitFailureMessage(git.stderr))
    ensures r.Success? ==> r.value == FindVersions(git.stdout)
    ensures r.Success? ==> forall k :: 0 <= k < |r.value| ==> IsToken(r.value[k])
  {
    if git.exitCode != 0 then
      Failure(RuntimeError(GitFailureMessage(git.stderr)))
    else
      Success(FindVersions(git.stdout))
  }

  /** Text in which no `r` occurs cannot start a match and is skipped. */
  lemma {:induction false} SkipUnmarked(p: string, s: string)
    requires forall k :: 0 <= k < |p| ==> p[k] != 'r'
    ensures FindVersions(p + s) == FindVersions(s)
    decreases |p|
  {
    if |p| == 0 {
      assert p + s == s;
    } else {
      assert (p + s)[0] == p[0];
      assert !MarkerMatchesHere(p + s);
      assert FindVersions(p + s) == FindVersions((p + s)[1..]);
      assert (p + s)[1..] == p[1..] + s;
      SkipUnmarked(p[1..], s);
    }
  }

  /** A marker followed by a token that ends at whitespace (or at the end
      of the text) yields exactly that token, and scanning resumes at the
      whitespace. */
  lemma MarkerThenToken(v: string, rest: string)
    requires IsToken(v)
    requires rest == "" || IsSpace(rest[0])
    ensures FindVersions(TagMarker + v + rest) == [v] + FindVersions(rest)
  {
    var s := TagMarker + v + rest;
    assert s[..|TagMarker|] == TagMarker;
    assert s[|TagMarker|] == v[0];
    assert MarkerMatchesHere(s);
    var tail := s[|TagMarker|..];
    assert tail == v + rest;
    TokenRun(v, rest);
    var n := NonSpaceRun(tail);
    assert tail[..n] == v;
    assert tail[n..] == rest;
  }

  lemma {:induction false} TokenRun(v: string, rest: string)
    requires IsToken(v)
    requires rest == "" || IsSpace(rest[0])
    ensures NonSpaceRun(v + rest) == |v|
    decreases |v|
  {
    assert (v + rest)[0] == v[0];
    if |v| == 1 {
      assert (v + rest)[1..] == rest;
    } else {
      assert (v + rest)[1..] == v[1..] + rest;
      TokenRun(v[1..], rest);
    }
  }

  /** What every tag line of `git ls-remote --tags` carries before the
      tag's name; `TagMarker` is this followed by `v`. */
  const TagsPrefix: string := "refs/tags/"

  /** `TagMarker` occurs in `s` starting at `i`. */
  predicate MarkerAt(s: string, i: nat) {
    i + |TagMarker| <= |s| && s[i..i + |TagMarker|] == TagMarker
  }

  /** Scanning moves over text in which no position starts a match. */
  lemma {:induction false} SkipNonMatching(p: string, s: string)
    requires forall i :: 0 <= i < |p| ==> !MarkerMatchesHere(p[i..] + s)
    ensures FindVersions(p + s) == FindVersions(s)
    decreases |p|
  {
    if |p| == 0 {
      assert p + s == s;
    } else {
      assert p[0..] == p;
      assert !MarkerMatchesHere(p + s);
      assert (p + s)[1..] == p[1..] + s;
      forall i | 0 <= i < |p[1..]|
        ensures !MarkerMatchesHere(p[1..][i..] + s)
      {
        assert p[1..][i..] == p[i + 1..];
      }
      SkipNonMatching(p[1..], s);
    }
  }

  /** One line of `git ls-remote --tags`: an object id, a tab, and the
      tag's reference `refs/tags/<name>`. */
  datatype TagRef = TagRef(objectId: string, name: string)

  /** A tag the pattern picks up: its name is `v` and at least one more
      character. */
  predicate IsVersionTag(t: TagRef) {
    2 <= |t.name| && t.name[0] == 'v'
  }

  predicate IsHexDigit(c: char) {
    IsDigit(c) || 'a' <= c <= 'f'
  }

  /** A line as `git` prints it: a hexadecimal id and a name without
      whitespace. A tag that is not a version tag (`latest`, `stable`,
      `1.0`) must not itself contain `refs/tags/v`. */
  predicate WellFormedRef(t: TagRef) {
    && (forall k :: 0 <= k < |t.objectId| ==> IsHexDigit(t.objectId[k]))
    && IsToken(t.name)
    && (IsVersionTag(t) || forall i :: 0 <= i < |t.name| ==> !MarkerAt(t.name, i))
  }

  function RefLine(t: TagRef): string {
    t.objectId + "\t" + TagsPrefix + t.name + "\n"
  }

  /** The output `git ls-remote --tags` prints for `refs`, one line each. */
  function LsRemoteOutput(refs: seq<TagRef>): string {
    if |refs| == 0 then "" else RefLine(refs[0]) + LsRemoteOutput(refs[1..])
  }

  /** The versions of the version tags among `refs`, in order: each name
      without its leading `v`. */
  function VersionsOf(refs: seq<TagRef>): (vs: seq<string>)
    ensures |vs| <= |refs|
    ensures forall k :: 0 <= k < |refs| && IsVersionTag(refs[k]) ==> refs[k].name[1..] in vs
    ensures forall v :: v in vs ==>
      exists k :: 0 <= k < |refs| && IsVersionTag(refs[k]) && refs[k].name[1..] == v
  {
    if |refs| == 0 then []
    else
      var rest := VersionsOf(refs[1..]);
      assert forall k :: 1 <= k < |refs| ==> refs[k] == refs[1..][k - 1];
      if IsVersionTag(refs[0]) then [refs[0].name[1..]] + rest else rest
  }

  /** A line for a tag that is not a version tag yields nothing, and the
      scan resumes at the next line. */
  lemma NonVersionTagSkipped(name: string, rest: string)
    requires IsToken(name)
    requires !(2 <= |name| && name[0] == 'v')
    requires forall i :: 0 <= i < |name| ==> !MarkerAt(name, i)
    ensures FindVersions(TagsPrefix + name + "\n" + rest) == FindVersions(rest)
  {
    var p := TagsPrefix + name + "\n";
    forall i | 0 <= i < |p|
      ensures !MarkerMatchesHere(p[i..] + rest)
    {
      NoMatchInTagLine(name, rest, i);
    }
    SkipNonMatching(p, rest);
  }

  lemma NoMatchInTagLine(name: string, rest: string, i: nat)
    requires IsToken(name)
    requires !(2 <= |name| && name[0] == 'v')
    requires forall i :: 0 <= i < |name| ==> !MarkerAt(name, i)
    requires i < |TagsPrefix| + |name| + 1
    ensures !MarkerMatchesHere((TagsPrefix + name + "\n")[i..] + rest)
  {
    var x := (TagsPrefix + name + "\n")[i..] + rest;
    var m := |TagMarker|;
    if i == 0 {
      assert x[10] == name[0];
      if name[0] == 'v' {
        assert |name| == 1;
        assert x[11] == '\n';
      } else {
        assert x[..m][10] != TagMarker[10];
      }
    } else if i < |TagsPrefix| {
      assert x[0] == TagsPrefix[i];
      if |x| > m {
        assert x[..m][0] != TagMarker[0];
      }
    } else if i < |TagsPrefix| + |name| {
      var j := i - |TagsPrefix|;
      assert x == name[j..] + "\n" + rest;
      if j + m <= |name| {
        assert x[..m] == name[j..j + m];
        assert !MarkerAt(name, j);
      } else if |x| > m {
        var e := |name| - j;
        assert x[e] == '\n';
        if e < m {
          assert x[..m][e] != TagMarker[e];
        }
      }
    } else {
      assert x[0] == '\n';
      if |x| > m {
        assert x[..m][0] != TagMarker[0];
      }
    }
  }

  /** The line of one tag yields that tag's version if it is a version tag
      and nothing otherwise; the scan then resumes at the next line. */
  lemma TagLine(t: TagRef, rest: string)
    requires WellFormedRef(t)
    ensures FindVersions(TagsPrefix + t.name + "\n" + rest)
         == (if IsVersionTag(t) then [t.name[1..]] else []) + FindVersions(rest)
  {
    if IsVersionTag(t) {
      var v := t.name[1..];
      assert TagsPrefix + t.name + "\n" + rest == TagMarker + v + ("\n" + rest);
      MarkerThenToken(v, "\n" + rest);
      SkipUnmarked("\n", rest);
    } else {
      NonVersionTagSkipped(t.name, rest);
    }
  }

  /** Extraction recovers the version of every version tag, in output
      order, and skips every other tag. */
  lemma {:induction false} ExtractFromLsRemote(refs: seq<TagRef>)
    requires forall k :: 0 <= k < |refs| ==> WellFormedRef(refs[k])
    ensures FindVersions(LsRemoteOutput(refs)) == VersionsOf(refs)
    decreases |refs|
  {
    if |refs| > 0 {
      var t := refs[0];
      var rest := LsRemoteOutput(refs[1..]);
      assert WellFormedRef(t);
      var lead := t.objectId + "\t";
      assert forall k :: 0 <= k < |lead| ==> lead[k] != 'r' by {
        forall k | 0 <= k < |lead|
          ensures lead[k] != 'r'
        {
          if k < |t.objectId| {
            assert lead[k] == t.objectId[k];
            assert IsHexDigit(t.objectId[k]);
          }
        }
      }
      assert LsRemoteOutput(refs) == lead + (TagsPrefix + t.name + "\n" + rest);
      SkipUnmarked(lead, TagsPrefix + t.name + "\n" + rest);
      TagLine(t, rest);
      ExtractFromLsRemote(refs[1..]);
    }
  }
}

=== FILE: patch_resolver.dfy ===
/** The scan of `get_latest_git_tagged_patch_version` in
    `get_release_version.py`: the highest patch among the tags on the
    targeted `major.minor` line, or -1 when there is none. */
module PatchResolver {
  import opened Wrappers
  import opened Script

  /** `packaging.version.parse(s).release` as far as the scan can see it:
      `None` when the string is not a valid version (`InvalidVersion`) or
      has no release segment (a legacy version), otherwise the release
      numbers. A valid version always has at least one. */
  type Parser = string -> Option<seq<nat>>

  /** The last release number: what `release[-1]` reads. */
  function Patch(release: seq<nat>): nat
    requires |release| >= 1
  {
    release[|release| - 1]
  }

  /** `t` parses, but its release has no minor number, so `release[1]`
      raises `IndexError`. */
  predicate Aborts(parse: Parser, t: string) {
    parse(t).Some? && |parse(t).value| < 2
  }

  /** `t` parses to a release on the targeted line. */
  predicate OnLine(parse: Parser, t: string, major: int, minor: int) {
    && parse(t).Some?
    && |parse(t).value| >= 2
    && parse(t).value[0] == major
    && parse(t).value[1] == minor
  }

  /** A tag the result can depend on: one that aborts or one on the line. */
  predicate Relevant(parse: Parser, t: string, major: int, minor: int) {
    Aborts(parse, t) || OnLine(parse, t, major, minor)
  }

  /** The loop body over `tags` with `latest` as the running maximum. */
  function ScanFrom(major: int, minor: int, tags: seq<string>, parse: Parser, latest: int): (r: Result<int, Error>)
    ensures r.Success? <==> forall t | t in tags :: !Aborts(parse, t)
    ensures r.Failure? ==> r.error == IndexError
    ensures r.Success? ==> r.value >= latest
    ensures r.Success? ==>
      forall t | t in tags && OnLine(parse, t, major, minor) :: Patch(parse(t).value) <= r.value
    ensures r.Success? ==>
      || r.value == latest
      || exists t :: t in tags && OnLine(parse, t, major, minor) && Patch(parse(t).value) == r.value
    decreases |tags|
  {
    if |tags| == 0 then
      Success(latest)
    else
      var t := tags[0];
      assert forall u :: u in tags <==> u == t || u in tags[1..];
      match parse(t)
      case None =>
        ScanFrom(major, minor, tags[1..], parse, latest)
      case Some(release) =>
        if |release| < 2 then
          assert Aborts(parse, t);
          Failure(IndexError)
        else if release[0] != major || release[1] != minor then
          ScanFrom(major, minor, tags[1..], parse, latest)
        else
          var patch := Patch(release);
          ScanFrom(major, minor, tags[1..], parse, if patch > latest then patch else latest)
  }

  /** `get_latest_git_tagged_patch_version`: start from -1 and scan. */
  function LatestTaggedPatch(major: int, minor: int, tags: seq<string>, parse: Parser): (r: Result<int, Error>)
    ensures r.Success? <==> forall t | t in tags :: !Aborts(parse, t)
    ensures r.Failure? ==> r.error == IndexError
    ensures r.Success? ==> r.value >= -1
    ensures r.Success? ==> (r.value == -1 <==> forall t | t in tags :: !OnLine(parse, t, major, minor))
    ensures r.Success? ==>
      forall t | t in tags && OnLine(parse, t, major, minor) :: Patch(parse(t).value) <= r.value
    ensures r.Success? && r.value != -1 ==>
      exists t :: t in tags && OnLine(parse, t, major, minor) && Patch(parse(t).value) == r.value
  {
    ScanFrom(major, minor, tags, parse, -1)
  }

  /** The result is determined by the set of relevant tags alone: neither
      their order, nor repetition, nor any unparseable tag or tag of another
      line changes it. */
  lemma OnlyRelevantTagsMatter(major: int, minor: int, tags1: seq<string>, tags2: seq<string>, parse: Parser)
    requires forall t :: (t in tags1 && Relevant(parse, t, major, minor)) <==> (t in tags2 && Relevant(parse, t, major, minor))
    ensures LatestTaggedPatch(major, minor, tags1, parse) == LatestTaggedPatch(major, minor, tags2, parse)
  {
    var r1 := LatestTaggedPatch(major, minor, tags1, parse);
    var r2 := LatestTaggedPatch(major, minor, tags2, parse);
    if r1.Success? && r2.Success? {
      AtMostOther(major, minor, tags1, tags2, parse);
      AtMostOther(major, minor, tags2, tags1, parse);
    }
  }

  lemma AtMostOther(major: int, minor: int, tags1: seq<string>, tags2: seq<string>, parse: Parser)
    requires forall t :: (t in tags1 && Relevant(parse, t, major, minor)) <==> (t in tags2 && Relevant(parse, t, major, minor))
    requires LatestTaggedPatch(major, minor, tags1, parse).Success?
    requires LatestTaggedPatch(major, minor, tags2, parse).Success?
    ensures LatestTaggedPatch(major, minor, tags1, parse).value <= LatestTaggedPatch(major, minor, tags2, parse).value
  {
    var v1 := LatestTaggedPatch(major, minor, tags1, parse).value;
    if v1 != -1 {
      var t :| t in tags1 && OnLine(parse, t, major, minor) && Patch(parse(t).value) == v1;
      assert Relevant(parse, t, major, minor);
      assert t in tags2;
    }
  }

  /** The scan does not depend on the order `git` lists the tags in. */
  lemma OrderDoesNotMatter(major: int, minor: int, tags1: seq<string>, tags2: seq<string>, parse: Parser)
    requires multiset(tags1) == multiset(tags2)
    ensures LatestTaggedPatch(major, minor, tags1, parse) == LatestTaggedPatch(major, minor, tags2, parse)
  {
    forall t
      ensures t in tags1 <==> t in tags2
    {
      assert t in tags1 <==> t in multiset(tags1);
      assert t in tags2 <==> t in multiset(tags2);
    }
    OnlyRelevantTagsMatter(major, minor, tags1, tags2, parse);
  }

  /** Inserting a tag that is unparseable, or parses to another
      `major.minor` line (however large its patch), changes nothing. */
  lemma IrrelevantTagDoesNotMatter(major: int, minor: int, before: seq<string>, t: string, after: seq<string>, parse: Parser)
    requires !Relevant(parse, t, major, minor)
    ensures LatestTaggedPatch(major, minor, before + [t] + after, parse)
         == LatestTaggedPatch(major, minor, before + after, parse)
  {
    OnlyRelevantTagsMatter(major, minor, before + [t] + after, before + after, parse);
  }

  /** The patch is the last release number: a tag whose release is exactly
      `major.minor` contributes `minor` itself, and a longer one its last number. */
  lemma PatchIsLastComponent(major: nat, minor: nat, t: string, parse: Parser)
    requires parse(t).Some? && |parse(t).value| >= 2
    requires parse(t).value[0] == major && parse(t).value[1] == minor
    ensures LatestTaggedPatch(major, minor, [t], parse) == Success(parse(t).value[|parse(t).value| - 1])
  {
  }

  /** A release with only a major number aborts the whole scan, wherever
      it stands and whatever else is listed. */
  lemma ShortReleaseAborts(major: int, minor: int, before: seq<string>, t: string, after: seq<string>, parse: Parser)
    requires parse(t).Some? && |parse(t).value| < 2
    ensures LatestTaggedPatch(major, minor, before + [t] + after, parse) == Failure(IndexError)
  {
    assert t in before + [t] + after;
  }

  /** Listing one more tag on the line raises the result to that tag's
      patch if it is higher, and otherwise leaves it alone. */
  lemma AppendTagOnLine(major: int, minor: int, tags: seq<string>, t: string, parse: Parser)
    requires LatestTaggedPatch(major, minor, tags, parse).Success?
    requires OnLine(parse, t, major, minor)
    ensures
      var latest := LatestTaggedPatch(major, minor, tags, parse).value;
      var patch := Patch(parse(t).value);
      LatestTaggedPatch(major, minor, tags + [t], parse) == Success(if patch > latest then patch else latest)
  {
    var latest := LatestTaggedPatch(major, minor, tags, parse).value;
    var patch := Patch(parse(t).value);
    var tags' := tags + [t];
    assert forall u :: u in tags' <==> u in tags || u == t;
    var r := LatestTaggedPatch(major, minor, tags', parse);
    assert r.Success?;
    assert t in tags';
    if r.value != patch && r.value != -1 {
      var u :| u in tags' && OnLine(parse, u, major, minor) && Patch(parse(u).value) == r.value;
      assert u in tags;
    }
    if latest != -1 {
      var u :| u in tags && OnLine(parse, u, major, minor) && Patch(parse(u).value) == latest;
      assert u in tags';
    }
  }
}

=== FILE: release_parser.dfy ===
/** A concrete stand-in for `packaging.version.parse(...).release` on the
    plainest version strings: an optional `v`/`V`, then decimal numbers
    separated by dots. On these strings it agrees with PEP 440 ("Public
    version identifiers", release segment); every other string, including
    ones PEP 440 accepts with pre-, post-, dev-release, epoch or local
    parts, is reported as having no release. */
module ReleaseParser {
  import opened Wrappers
  import opened Text

  predicate IsNumeral(p: string) {
    1 <= |p| && AllDigits(p)
  }

  predicate AllNumerals(parts: seq<string>) {
    forall k :: 0 <= k < |parts| ==> IsNumeral(parts[k])
  }

  function Numbers(parts: seq<string>): (ns: seq<nat>)
    requires AllNumerals(parts)
    ensures |ns| == |parts|
    ensures forall k :: 0 <= k < |parts| ==> IsNumeral(parts[k]) && ns[k] == DigitsValue(parts[k])
  {
    if |parts| == 0 then []
    else
      assert IsNumeral(parts[0]);
      [DigitsValue(parts[0])] + Numbers(parts[1..])
  }

  /** Strip one leading `v` or `V`, as PEP 440 normalisation does. */
  function StripV(s: string): string {
    if 1 <= |s| && (s[0] == 'v' || s[0] == 'V') then s[1..] else s
  }

  function ParseRelease(s: string): (r: Option<seq<nat>>)
    ensures r.Some? ==> 1 <= |r.value|
    ensures r.Some? <==> AllNumerals(Split(StripV(s), '.'))
  {
    var parts := Split(StripV(s), '.');
    if AllNumerals(parts) then Some(Numbers(parts)) else None
  }

  function Numerals(release: seq<nat>): (ps: seq<string>)
    ensures |ps| == |release|
    ensures forall k :: 0 <= k < |release| ==> ps[k] == NatToString(release[k])
  {
    if |release| == 0 then [] else [NatToString(release[0])] + Numerals(release[1..])
  }

  /** The canonical text of a release: its numbers joined by dots. */
  function FormatRelease(release: seq<nat>): string {
    Join(Numerals(release), '.')
  }

  /** Parsing the text of a release gives the release back. */
  lemma ParseFormatRelease(release: seq<nat>)
    requires 1 <= |release|
    ensures ParseRelease(FormatRelease(release)) == Some(release)
  {
    var ps := Numerals(release);
    forall k | 0 <= k < |ps|
      ensures '.' !in ps[k] && IsNumeral(ps[k]) && DigitsValue(ps[k]) == release[k]
    {
      NatToStringValue(release[k]);
      assert AllDigits(ps[k]);
    }
    JoinStartsWithFirst(ps);
    SplitJoin(ps, '.');
    assert Numbers(ps) == release;
  }

  lemma JoinStartsWithFirst(ps: seq<string>)
    requires 1 <= |ps| && 1 <= |ps[0]|
    ensures 1 <= |Join(ps, '.')| && Join(ps, '.')[0] == ps[0][0]
  {
  }

  /** A string with a piece that is not a decimal number (`1.4.x`,
      `not-a-version`, `1..4`) has no release. */
  lemma NonNumericPieceRejected(s: string, k: nat)
    requires k < |Split(StripV(s), '.')|
    requires !IsNumeral(Split(StripV(s), '.')[k])
    ensures ParseRelease(s) == None
  {
  }
}

=== FILE: release_version.dfy ===
/** `main` of `get_release_version.py` without its file and config I/O:
    read the target line, list the tags, find the latest patch on that
    line, and emit the next release as an Azure Pipelines variable. */
module ReleaseVersion {
  import opened Wrappers
  import opened Text
  import opened Script
  import opened TargetConfig
  import opened GitTags
  import opened PatchResolver
  import opened ReleaseParser

  const ReleaseVariable: string := "RELEASE_VERSION"

  /** `f"{major}.{minor}.{patch}"`: the three numbers' decimal texts,
      which are exactly the pieces the text splits back into at `.`. */
  function ReleaseString(major: int, minor: int, patch: int): (version: string)
    ensures Split(version, '.') == [IntToString(major), IntToString(minor), IntToString(patch)]
  {
    var a, b, c := IntToString(major), IntToString(minor), IntToString(patch);
    JoinThree(a, b, c, '.');
    SplitJoin([a, b, c], '.');
    a + "." + b + "." + c
  }

  /** What `print` writes for the release: the logging command that sets
      `RELEASE_VERSION`, then the version, then a newline. */
  function ReleaseLine(version: string): (line: string)
    ensures |line| == |SetVariablePrefix| + |ReleaseVariable| + 1 + |version| + 1
    ensures line[..|SetVariablePrefix| + |ReleaseVariable| + 1]
         == "##vso[task.setvariable variable=RELEASE_VERSION]"
    ensures line[|SetVariablePrefix| + |ReleaseVariable| + 1..] == version + "\n"
  {
    SetVariableCommand(ReleaseVariable, version) + "\n"
  }

  /** One run of the script on the configured `target` and the captured
      `git ls-remote --tags`: the text printed on standard output, or the
      exception that ends the run. */
  function ReleaseMain(target: string, git: GitOutput, parse: Parser): (r: Result<string, Error>)
    ensures ParseTarget(target).Failure? ==> r == Failure(ValueError(TargetFormatMessage))
    ensures ParseTarget(target).Success? && git.exitCode != 0 ==>
      r == Failure(RuntimeError(GitFailureMessage(git.stderr)))
    ensures r.Failure? ==>
      || r.error == ValueError(TargetFormatMessage)
      || r.error == RuntimeError(GitFailureMessage(git.stderr))
      || r.error == IndexError
    ensures ParseTarget(target).Success? && git.exitCode == 0 ==>
      (r.Failure? <==> exists t :: t in FindVersions(git.stdout) && Aborts(parse, t))
    ensures ParseTarget(target).Success? && git.exitCode == 0 && r.Failure? ==> r.error == IndexError
  {
    var line :- ParseTarget(target);
    var tags :- ListVersions(git);
    var latest :- LatestTaggedPatch(line.0, line.1, tags, parse);
    Success(ReleaseLine(ReleaseString(line.0, line.1, latest + 1)))
  }

  /** The version `ReleaseMain` announces for `major.minor`, given the tags. */
  ghost predicate AnnouncesNext(major: int, minor: int, patch: nat, tags: seq<string>, parse: Parser) {
    && (forall t | t in tags && OnLine(parse, t, major, minor) :: Patch(parse(t).value) < patch)
    && (patch == 0 <==> forall t | t in tags :: !OnLine(parse, t, major, minor))
    && (patch > 0 ==> exists t :: t in tags && OnLine(parse, t, major, minor) && Patch(parse(t).value) == patch - 1)
  }

  /** A successful run prints `major.minor.patch` for the configured line,
      where `patch` is one past the highest patch tagged on that line, or 0
      for a line with no tags yet. */
  lemma ReleaseMainSound(target: string, git: GitOutput, parse: Parser)
    ensures ReleaseMain(target, git, parse).Success? ==> git.exitCode == 0
    ensures ReleaseMain(target, git, parse).Success? ==>
      exists major: int, minor: int, patch: nat ::
        && Denotes(target, major, minor)
        && ReleaseMain(target, git, parse).value == ReleaseLine(ReleaseString(major, minor, patch))
        && AnnouncesNext(major, minor, patch, FindVersions(git.stdout), parse)
  {
    if ReleaseMain(target, git, parse).Failure? {
      return;
    }
    var line := ParseTarget(target).value;
    ParseTargetSound(target);
    var tags := FindVersions(git.stdout);
    var latest := LatestTaggedPatch(line.0, line.1, tags, parse).value;
    var patch: nat := latest + 1;
    assert AnnouncesNext(line.0, line.1, patch, tags, parse);
    assert ReleaseMain(target, git, parse).value == ReleaseLine(ReleaseString(line.0, line.1, patch));
  }

  /** The release string splits back into its three numbers, and read as a
      target it names the same `major.minor` line. */
  lemma ReleaseStringRoundTrip(major: int, minor: int, patch: int)
    ensures Split(ReleaseString(major, minor, patch), '.')
         == [IntToString(major), IntToString(minor), IntToString(patch)]
    ensures ParseTarget(ReleaseString(major, minor, patch)) == Success((major, minor))
  {
    var a, b, c := IntToString(major), IntToString(minor), IntToString(patch);
    assert '.' !in a && '.' !in b && '.' !in c;
    JoinThree(a, b, c, '.');
    SplitJoin([a, b, c], '.');
    ParseIntRoundTrip(major);
    ParseIntRoundTrip(minor);
  }

  /** A release string of natural numbers is a valid tag whose release is
      exactly those three numbers. */
  lemma ReleaseStringParses(major: nat, minor: nat, patch: nat)
    ensures ParseRelease(ReleaseString(major, minor, patch)) == Some([major, minor, patch])
  {
    var ns := Numerals([major, minor, patch]);
    assert ns == [IntToString(major), IntToString(minor), IntToString(patch)];
    JoinThree(IntToString(major), IntToString(minor), IntToString(patch), '.');
    ParseFormatRelease([major, minor, patch]);
  }

  /** Tagging the announced release makes the next run announce the patch
      after it: the resolver sees its own output as the newest tag. */
  lemma NextRunAdvances(major: nat, minor: nat, tags: seq<string>, latest: int)
    requires LatestTaggedPatch(major, minor, tags, ParseRelease) == Success(latest)
    ensures LatestTaggedPatch(major, minor, tags + [ReleaseString(major, minor, latest + 1)], ParseRelease)
         == Success(latest + 1)
  {
    var patch: nat := latest + 1;
    var t := ReleaseString(major, minor, patch);
    ReleaseStringParses(major, minor, patch);
    AppendTagOnLine(major, minor, tags, t, ParseRelease);
  }

  /** Two runs of the script with the plain-release parser: the first
      announces `major.minor.(latest + 1)`; once that release is tagged and
      listed after the earlier tags, the second announces
      `major.minor.(latest + 2)`. */
  lemma NextRunAnnouncesNext(target: string, first: GitOutput, second: GitOutput, major: nat, minor: nat, latest: int)
    requires ParseTarget(target) == Success((major, minor))
    requires first.exitCode == 0 && second.exitCode == 0
    requires LatestTaggedPatch(major, minor, FindVersions(first.stdout), ParseRelease) == Success(latest)
    requires FindVersions(second.stdout) == FindVersions(first.stdout) + [ReleaseString(major, minor, latest + 1)]
    ensures ReleaseMain(target, first, ParseRelease) == Success(ReleaseLine(ReleaseString(major, minor, latest + 1)))
    ensures ReleaseMain(target, second, ParseRelease) == Success(ReleaseLine(ReleaseString(major, minor, latest + 2)))
  {
    NextRunAdvances(major, minor, FindVersions(first.stdout), latest);
    ReleaseMainFromParts(target, first, ParseRelease, major, minor, latest);
    ReleaseMainFromParts(target, second, ParseRelease, major, minor, latest + 1);
  }

  /** A run whose target reads as `major.minor`, whose `git` succeeds and
      whose tags give `latest` announces `major.minor.(latest + 1)`. */
  lemma ReleaseMainFromParts(target: string, git: GitOutput, parse: Parser, major: int, minor: int, latest: int)
    requires ParseTarget(target) == Success((major, minor))
    requires git.exitCode == 0
    requires LatestTaggedPatch(major, minor, FindVersions(git.stdout), parse) == Success(latest)
    ensures ReleaseMain(target, git, parse) == Success(ReleaseLine(ReleaseString(major, minor, latest + 1)))
  {
    assert ListVersions(git) == Success(FindVersions(git.stdout));
  }
}

=== FILE: repo_name.dfy ===
/** `get_repo_name.py`: find the repository name in the output of
    `git remote show origin` with `REGEX_REPO_NAME`, take the first
    match's first group, and emit it as an Azure Pipelines variable. */
module RepoName {
  import opened Wrappers
  import opened Text
  import opened Script

  const RepoVariable: string := "REPO_NAME"

  /** A character of `[\w-]` (ASCII word characters and `-`). */
  predicate IsNameChar(c: char) {
    IsWordChar(c) || c == '-'
  }

  predicate IsName(name: string) {
    && 1 <= |name|
    && forall k :: 0 <= k < |name| ==> IsNameChar(name[k])
  }

  /** How far greedy `[\w-]+` reaches from the front of `s`. */
  function NameRun(s: string): (n: nat)
    ensures n <= |s|
    ensures forall k :: 0 <= k < n ==> IsNameChar(s[k])
    ensures n < |s| ==> !IsNameChar(s[n])
  {
    if |s| == 0 || !IsNameChar(s[0]) then 0 else 1 + NameRun(s[1..])
  }

  /** What may follow the name: `\n`, or `(.git)` then `\n`, where `.` is
      any character but a newline. */
  predicate EndsName(t: string) {
    || (1 <= |t| && t[0] == '\n')
    || (5 <= |t| && t[0] != '\n' && t[1..5] == "git\n")
  }

  /** `\/(?P<repo>[\w-]+)(.git)?\n` matches at the front of `s`, stated
      with the name taken to be the maximal run of `[\w-]`. */
  predicate RepoPatternMatchesHere(s: string) {
    && 1 <= |s|
    && s[0] == '/'
    && 1 <= NameRun(s[1..])
    && EndsName(s[1 + NameRun(s[1..])..])
  }

  /** The regular expression's own meaning at the front of `s`: the group
      `repo` takes `k` characters and the optional `(.git)` is taken
      (`withGit`) or skipped. Several choices can match the same text; the
      matcher's backtracking order picks the largest `k`. */
  predicate PatternMatch(s: string, k: nat, withGit: bool) {
    && 1 <= |s|
    && s[0] == '/'
    && 1 <= k
    && k + 1 <= |s|
    && (forall j :: 1 <= j <= k ==> IsNameChar(s[j]))
    && if withGit then
         k + 6 <= |s| && s[k + 1] != '\n' && s[k + 2..k + 5] == "git" && s[k + 5] == '\n'
       else
         k + 2 <= |s| && s[k + 1] == '\n'
  }

  /** No choice of the regular expression captures more than the maximal
      run: greedy `[\w-]+` cannot extend past it. */
  lemma PatternWithinRun(s: string, k: nat, withGit: bool)
    requires PatternMatch(s, k, withGit)
    ensures k <= NameRun(s[1..])
  {
  }

  /** The pattern matches at the front of `s` for some choice exactly when
      the maximal-run reading does, and then the maximal run is itself a
      matching choice, the one backtracking tries first. */
  lemma PatternMatchesIffRun(s: string)
    ensures (exists k: nat, g: bool :: PatternMatch(s, k, g)) <==> RepoPatternMatchesHere(s)
    ensures RepoPatternMatchesHere(s) ==> exists g: bool :: PatternMatch(s, NameRun(s[1..]), g)
  {
    if RepoPatternMatchesHere(s) {
      var n := NameRun(s[1..]);
      var t := s[1 + n..];
      forall j | 1 <= j <= n
        ensures IsNameChar(s[j])
      {
        assert s[j] == s[1..][j - 1];
      }
      if t[0] == '\n' {
        assert PatternMatch(s, n, false);
      } else {
        assert t[1..5] == s[n + 2..n + 6];
        assert s[n + 2..n + 5] == t[1..5][..3] == "git";
        assert s[n + 5] == t[1..5][3] == '\n';
        assert PatternMatch(s, n, true);
      }
    }
    if exists k: nat, g: bool :: PatternMatch(s, k, g) {
      var k: nat, g: bool :| PatternMatch(s, k, g);
      PatternImpliesRun(s, k, g);
    }
  }

  lemma PatternImpliesRun(s: string, k: nat, g: bool)
    requires PatternMatch(s, k, g)
    ensures RepoPatternMatchesHere(s)
  {
    var n := NameRun(s[1..]);
    PatternWithinRun(s, k, g);
    assert s[1..][0] == s[1];
    if k == n {
      if g {
        var w := s[n + 2..n + 5];
        assert w[0] == s[n + 2] && w[1] == s[n + 3] && w[2] == s[n + 4];
        assert s[1 + n..][1..5] == [s[n + 2], s[n + 3], s[n + 4], s[n + 5]];
      }
    } else {
      // A shorter capture leaves run characters after it; only `(.git)`
      // can consume them, and then the run ends right before the newline.
      assert IsNameChar(s[1..][k]);
      if g {
        var w := s[k + 2..k + 5];
        assert w[0] == s[k + 2] && w[1] == s[k + 3] && w[2] == s[k + 4];
        RunThrough(s[1..], k, k + 4);
        assert s[1..][k + 4] == s[k + 5];
        assert n == k + 4;
        assert s[1 + n] == '\n';
      }
    }
  }

  /** The run reaches `m` when the characters up to `m` are name characters
      and the one at `m` is not. */
  lemma RunThrough(s: string, k: nat, m: nat)
    requires k <= m < |s|
    requires NameRun(s) >= k
    requires forall j :: k <= j < m ==> IsNameChar(s[j])
    requires !IsNameChar(s[m])
    ensures NameRun(s) == m
  {
  }

  /** The leftmost position from `i` on where the pattern matches, which
      is where `findall` finds its first match. */
  function FirstMatchFrom(s: string, i: nat): (r: Option<nat>)
    requires i <= |s|
    ensures r.Some? ==> i <= r.value < |s| && RepoPatternMatchesHere(s[r.value..])
    ensures r.Some? ==> forall j :: i <= j < r.value ==> !RepoPatternMatchesHere(s[j..])
    ensures r.None? ==> forall j :: i <= j < |s| ==> !RepoPatternMatchesHere(s[j..])
    decreases |s| - i
  {
    if i == |s| then None
    else if RepoPatternMatchesHere(s[i..]) then Some(i)
    else FirstMatchFrom(s, i + 1)
  }

  /** The name captured by a match at the front of `s`. */
  function CapturedName(s: string): (name: string)
    requires RepoPatternMatchesHere(s)
    ensures IsName(name)
    ensures 1 + |name| <= |s|
    ensures s == "/" + name + s[1 + |name|..]
    ensures EndsName(s[1 + |name|..])
    ensures !IsNameChar(s[1 + |name|])
  {
    var n := NameRun(s[1..]);
    var name := s[1..1 + n];
    assert forall k :: 0 <= k < |name| ==> name[k] == s[1..][k];
    assert s == s[..1] + name + s[1 + n..];
    name
  }

  /** `REGEX_REPO_NAME.findall(output)[0][0]`: the `repo` group of the
      leftmost match; with no match the `[0]` raises `IndexError`. */
  function RepoNameOf(output: string): (r: Result<string, Error>)
    ensures r.Failure? <==> forall j :: 0 <= j < |output| ==> !RepoPatternMatchesHere(output[j..])
    ensures r.Failure? ==> r.error == IndexError
    ensures r.Success? ==> IsName(r.value)
    ensures r.Success? ==>
      exists i :: (
        && 0 <= i < |output|
        && RepoPatternMatchesHere(output[i..])
        && CapturedName(output[i..]) == r.value
        && forall j :: 0 <= j < i ==> !RepoPatternMatchesHere(output[j..]))
  {
    match FirstMatchFrom(output, 0)
    case None => Failure(IndexError)
    case Some(i) => Success(CapturedName(output[i..]))
  }

  /** The lines `get_repo_name.py` prints and the exception it ends with, if any. */
  datatype ScriptRun = ScriptRun(stdout: string, raised: Option<Error>)

  /** The whole script after `git remote show origin` has returned. */
  function GetRepoName(git: GitOutput): (run: ScriptRun)
    ensures git.exitCode != 0 ==>
      run == ScriptRun("", Some(RuntimeError(GitFailureMessage(git.stderr))))
    ensures run.raised.None? <==> git.exitCode == 0 && RepoNameOf(git.stdout).Success?
    ensures run.raised.None? ==>
      run.stdout == "Git Response:\n" + git.stdout + "\n"
        + SetVariableCommand(RepoVariable, RepoNameOf(git.stdout).value) + "\n"
    ensures git.exitCode == 0 && run.raised.Some? ==>
      run == ScriptRun("Git Response:\n" + git.stdout + "\n", Some(IndexError))
  {
    if git.exitCode != 0 then
      ScriptRun("", Some(RuntimeError(GitFailureMessage(git.stderr))))
    else
      var echo := "Git Response:\n" + git.stdout + "\n";
      match RepoNameOf(git.stdout)
      case Success(name) => ScriptRun(echo + SetVariableCommand(RepoVariable, name) + "\n", None)
      case Failure(e) => ScriptRun(echo, Some(e))
  }

  /** A remote URL ending in `/<name>.git` on its own line yields `<name>`
      when nothing before it contains a `/`: the `.git` is never part of
      the name. */
  lemma NameBeforeDotGit(prefix: string, name: string, rest: string)
    requires '/' !in prefix
    requires IsName(name)
    ensures RepoNameOf(prefix + "/" + name + ".git\n" + rest) == Success(name)
  {
    var s := prefix + "/" + name + ".git\n" + rest;
    AtSlash(s, |prefix|, name, ".git\n" + rest);
  }

  /** A name directly followed by a newline is taken whole. */
  lemma NameBeforeNewline(prefix: string, name: string, rest: string)
    requires '/' !in prefix
    requires IsName(name)
    ensures RepoNameOf(prefix + "/" + name + "\n" + rest) == Success(name)
  {
    var s := prefix + "/" + name + "\n" + rest;
    AtSlash(s, |prefix|, name, "\n" + rest);
  }

  lemma {:induction false} NameRunOf(name: string, after: string)
    requires IsName(name)
    requires after == "" || !IsNameChar(after[0])
    ensures NameRun(name + after) == |name|
    decreases |name|
  {
    assert (name + after)[0] == name[0];
    if |name| == 1 {
      assert (name + after)[1..] == after;
    } else {
      assert (name + after)[1..] == name[1..] + after;
      NameRunOf(name[1..], after);
    }
  }

  lemma AtSlash(s: string, i: nat, name: string, after: string)
    requires i < |s| && s[i..] == "/" + name + after
    requires '/' !in s[..i]
    requires IsName(name)
    requires EndsName(after) && !IsNameChar(after[0])
    ensures RepoNameOf(s) == Success(name)
  {
    var t := s[i..];
    assert t[1..] == name + after;
    NameRunOf(name, after);
    var n := NameRun(t[1..]);
    assert t[1 + n..] == after;
    assert RepoPatternMatchesHere(t);
    forall j | 0 <= j < i
      ensures !RepoPatternMatchesHere(s[j..])
    {
      assert s[j..][0] == s[..i][j];
    }
    var r := RepoNameOf(s);
    var k :| 0 <= k < |s| && RepoPatternMatchesHere(s[k..]) && CapturedName(s[k..]) == r.value
      && (forall j :: 0 <= j < k ==> !RepoPatternMatchesHere(s[j..]));
    assert k == i;
    assert s[1 + |name|..][..0] == [];
    assert CapturedName(t) == t[1..1 + n];
    assert t[1..1 + n] == name;
  }
}

=== FILE: scenarios.dfy ===
/** Concrete runs of the release-version computation on small tag lists.
    Each run is stated for every parser that reads the listed tags the way
    PEP 440 does; `PlainParserReadsTags` shows the plain-release parser is
    one of them. */
module ReleaseScenarios {
  import opened Wrappers
  import opened Text
  import opened Script
  import opened TargetConfig
  import opened GitTags
  import opened PatchResolver
  import opened ReleaseParser
  import opened ReleaseVersion

  /** The releases PEP 440 gives the tags used below. */
  predicate ReadsLikePep440(parse: Parser) {
    && parse("1.4.0") == Some([1, 4, 0])
    && parse("1.4.1") == Some([1, 4, 1])
    && parse("1.4.2") == Some([1, 4, 2])
    && parse("1.4.5") == Some([1, 4, 5])
    && parse("2.0.0") == Some([2, 0, 0])
    && parse("1.4") == Some([1, 4])
    && parse("1.4.2.7") == Some([1, 4, 2, 7])
    && parse("7") == Some([7])
    && parse("not-a-version") == None
    && parse("1.4.x") == None
  }

  lemma PlainParserReadsTriple(s: string, major: nat, minor: nat, patch: nat)
    requires s == ReleaseString(major, minor, patch)
    ensures ParseRelease(s) == Some([major, minor, patch])
  {
    ReleaseStringParses(major, minor, patch);
  }

  lemma PlainParserReadsPair()
    ensures ParseRelease("1.4") == Some([1, 4])
  {
    assert FormatRelease([1, 4]) == "1.4";
    ParseFormatRelease([1, 4]);
  }

  lemma PlainParserReadsQuad()
    ensures ParseRelease("1.4.2.7") == Some([1, 4, 2, 7])
  {
    var ns := Numerals([1, 4, 2, 7]);
    assert ns == ["1", "4", "2", "7"];
    assert ns[1..] == ["4", "2", "7"];
    JoinThree("4", "2", "7", '.');
    assert FormatRelease([1, 4, 2, 7]) == "1.4.2.7";
    ParseFormatRelease([1, 4, 2, 7]);
  }

  lemma PlainParserReadsSingle()
    ensures ParseRelease("7") == Some([7])
  {
    assert FormatRelease([7]) == "7";
    ParseFormatRelease([7]);
  }

  lemma PlainParserRejectsWord()
    ensures ParseRelease("not-a-version") == None
  {
    SplitNoSep("not-a-version", '.');
    NonNumericPieceRejected("not-a-version", 0);
  }

  lemma PlainParserRejectsLetterPiece()
    ensures ParseRelease("1.4.x") == None
  {
    JoinThree("1", "4", "x", '.');
    SplitJoin(["1", "4", "x"], '.');
    NonNumericPieceRejected("1.4.x", 2);
  }

  lemma TripleLiteral(major: nat, minor: nat, patch: nat, s: string)
    requires major < 10 && minor < 10 && patch < 10
    requires s == [DigitChar(major), '.', DigitChar(minor), '.', DigitChar(patch)]
    ensures ReleaseString(major, minor, patch) == s
  {
  }

  /** The plain-release parser reads every tag used below as PEP 440
      does, so each scenario holds for it. */
  lemma PlainParserReadsTags()
    ensures ReadsLikePep440(ParseRelease)
  {
    TripleLiteral(1, 4, 0, "1.4.0");
    TripleLiteral(1, 4, 1, "1.4.1");
    TripleLiteral(1, 4, 2, "1.4.2");
    TripleLiteral(1, 4, 5, "1.4.5");
    TripleLiteral(2, 0, 0, "2.0.0");
    PlainParserReadsTriple("1.4.0", 1, 4, 0);
    PlainParserReadsTriple("1.4.1", 1, 4, 1);
    PlainParserReadsTriple("1.4.2", 1, 4, 2);
    PlainParserReadsTriple("1.4.5", 1, 4, 5);
    PlainParserReadsTriple("2.0.0", 2, 0, 0);
    PlainParserReadsPair();
    PlainParserReadsQuad();
    PlainParserReadsSingle();
    PlainParserRejectsWord();
    PlainParserRejectsLetterPiece();
  }

  lemma TargetOneFour()
    ensures ParseTarget("1.4") == Success((1, 4))
  {
    assert ReadsAs("1.4", "1", "4", "", 1, 4);
    ParseTargetComplete("1.4", 1, 4);
  }

  /** Tags `1.4.0`, `1.4.2`, `1.4.1`, `2.0.0` and target `1.4`: the latest
      patch is 2. */
  lemma HighestPatchOnLine(parse: Parser)
    requires ReadsLikePep440(parse)
    ensures LatestTaggedPatch(1, 4, ["1.4.0", "1.4.2", "1.4.1", "2.0.0"], parse) == Success(2)
  {
  }

  /** Four version tags and a tag `latest`, as `git ls-remote --tags`
      lists them. */
  function ListedRefs(): seq<TagRef> {
    [TagRef("a1", "v1.4.0"), TagRef("b2", "v1.4.2"), TagRef("e5", "latest"),
     TagRef("c3", "v1.4.1"), TagRef("d4", "v2.0.0")]
  }

  lemma ListedRefsWellFormed()
    ensures forall k :: 0 <= k < |ListedRefs()| ==> WellFormedRef(ListedRefs()[k])
  {
    var refs := ListedRefs();
    assert WellFormedRef(refs[0]);
    assert WellFormedRef(refs[1]);
    assert WellFormedRef(refs[2]);
    assert WellFormedRef(refs[3]);
    assert WellFormedRef(refs[4]);
  }

  lemma ListedVersions()
    ensures VersionsOf(ListedRefs()) == ["1.4.0", "1.4.2", "1.4.1", "2.0.0"]
  {
    var refs := ListedRefs();
    assert refs[1..][1..][1..] == refs[3..];
    assert VersionsOf(refs[3..]) == ["1.4.1", "2.0.0"];
  }

  /** The versions come out in listing order and `latest` is skipped. */
  lemma ListedTags()
    ensures FindVersions(LsRemoteOutput(ListedRefs())) == ["1.4.0", "1.4.2", "1.4.1", "2.0.0"]
  {
    ListedRefsWellFormed();
    ExtractFromLsRemote(ListedRefs());
    ListedVersions();
  }

  /** The same run from any `git` output listing those tags (such as the
      one `ListedTags` shows): the run announces `1.4.3`. */
  lemma NextPatchFromGitOutput(parse: Parser, stdout: string)
    requires ReadsLikePep440(parse)
    requires FindVersions(stdout) == ["1.4.0", "1.4.2", "1.4.1", "2.0.0"]
    ensures ReleaseMain("1.4", GitOutput(0, stdout, ""), parse)
         == Success("##vso[task.setvariable variable=RELEASE_VERSION]1.4.3\n")
  {
    TargetOneFour();
    HighestPatchOnLine(parse);
    assert ReleaseMain("1.4", GitOutput(0, stdout, ""), parse) == Success(ReleaseLine(ReleaseString(1, 4, 3)));
    AnnouncedText();
  }

  lemma ReleaseLineText(version: string)
    ensures ReleaseLine(version) == "##vso[task.setvariable variable=RELEASE_VERSION]" + version + "\n"
  {
  }

  /** The line announcing a release of one-digit numbers, spelled out. */
  lemma AnnouncedTextOf(major: nat, minor: nat, patch: nat, line: string)
    requires major < 10 && minor < 10 && patch < 10
    requires line == "##vso[task.setvariable variable=RELEASE_VERSION]"
      + [DigitChar(major), '.', DigitChar(minor), '.', DigitChar(patch)] + "\n"
    ensures ReleaseLine(ReleaseString(major, minor, patch)) == line
  {
    var version := [DigitChar(major), '.', DigitChar(minor), '.', DigitChar(patch)];
    TripleLiteral(major, minor, patch, version);
    ReleaseLineText(version);
  }

  lemma AnnouncedText()
    ensures ReleaseLine(ReleaseString(1, 4, 3)) == "##vso[task.setvariable variable=RELEASE_VERSION]1.4.3\n"
  {
    AnnouncedTextOf(1, 4, 3, "##vso[task.setvariable variable=RELEASE_VERSION]1.4.3\n");
  }

  lemma AnnouncedFreshText()
    ensures ReleaseLine(ReleaseString(2, 0, 0)) == "##vso[task.setvariable variable=RELEASE_VERSION]2.0.0\n"
  {
    AnnouncedTextOf(2, 0, 0, "##vso[task.setvariable variable=RELEASE_VERSION]2.0.0\n");
  }

  lemma AnnouncedAfterMalformedText()
    ensures ReleaseLine(ReleaseString(1, 4, 6)) == "##vso[task.setvariable variable=RELEASE_VERSION]1.4.6\n"
  {
    AnnouncedTextOf(1, 4, 6, "##vso[task.setvariable variable=RELEASE_VERSION]1.4.6\n");
  }

  lemma TargetTwoZero()
    ensures ParseTarget("2.0") == Success((2, 0))
  {
    assert ReadsAs("2.0", "2", "0", "", 2, 0);
    ParseTargetComplete("2.0", 2, 0);
  }

  lemma NoTagOnFreshLine(parse: Parser)
    requires ReadsLikePep440(parse)
    ensures LatestTaggedPatch(2, 0, ["1.4.0", "1.4.2"], parse) == Success(-1)
  {
  }

  /** Tags only of line `1.4` and target `2.0`: no tag is on the line, the
      latest patch is -1 and the run announces `2.0.0`. */
  lemma FreshLine(parse: Parser, stdout: string)
    requires ReadsLikePep440(parse)
    requires FindVersions(stdout) == ["1.4.0", "1.4.2"]
    ensures ReleaseMain("2.0", GitOutput(0, stdout, ""), parse)
         == Success("##vso[task.setvariable variable=RELEASE_VERSION]2.0.0\n")
  {
    TargetTwoZero();
    NoTagOnFreshLine(parse);
    assert ReleaseMain("2.0", GitOutput(0, stdout, ""), parse) == Success(ReleaseLine(ReleaseString(2, 0, 0)));
    AnnouncedFreshText();
  }

  lemma LatestAfterMalformed(parse: Parser)
    requires ReadsLikePep440(parse)
    ensures LatestTaggedPatch(1, 4, ["not-a-version", "1.4.x", "1.4.5"], parse) == Success(5)
  {
  }

  /** `not-a-version` and `1.4.x` are skipped: the latest patch is 5 and
      the run announces `1.4.6`. */
  lemma MalformedTagsSkipped(parse: Parser, stdout: string)
    requires ReadsLikePep440(parse)
    requires FindVersions(stdout) == ["not-a-version", "1.4.x", "1.4.5"]
    ensures ReleaseMain("1.4", GitOutput(0, stdout, ""), parse)
         == Success("##vso[task.setvariable variable=RELEASE_VERSION]1.4.6\n")
  {
    TargetOneFour();
    LatestAfterMalformed(parse);
    assert ReleaseMain("1.4", GitOutput(0, stdout, ""), parse) == Success(ReleaseLine(ReleaseString(1, 4, 6)));
    AnnouncedAfterMalformedText();
  }

  /** A tag `1.4` has release `(1, 4)`: its patch is read as 4, so it
      outranks `1.4.2`. */
  lemma TwoComponentTagContributesMinor(parse: Parser)
    requires ReadsLikePep440(parse)
    ensures LatestTaggedPatch(1, 4, ["1.4.2", "1.4"], parse) == Success(4)
  {
  }

  /** A four-number release contributes its fourth number. */
  lemma FourComponentTagContributesLast(parse: Parser)
    requires ReadsLikePep440(parse)
    ensures LatestTaggedPatch(1, 4, ["1.4.5", "1.4.2.7"], parse) == Success(7)
  {
  }

  /** A tag `7` has no minor number and aborts the run with `IndexError`. */
  lemma OneComponentTagAborts(parse: Parser)
    requires ReadsLikePep440(parse)
    ensures LatestTaggedPatch(1, 4, ["1.4.2", "7"], parse) == Failure(IndexError)
  {
    ShortReleaseAborts(1, 4, ["1.4.2"], "7", [], parse);
  }

  /** A failing `git` aborts the run and nothing is announced. */
  lemma GitFailureAborts(stdout: string, stderr: string, code: int, parse: Parser)
    requires code != 0
    ensures ReleaseMain("1.4", GitOutput(code, stdout, stderr), parse)
         == Failure(RuntimeError("Error getting tag list from git: '" + stderr + "'"))
  {
    TargetOneFour();
  }
}

=== FILE: script.dfy ===
/** What the two scripts share: the exceptions they can end with, the
    captured result of a `git` subprocess, and Azure Pipelines'
    `##vso[task.setvariable ...]` logging command. */
module Script {

  /** The uncaught exception a script run ends with. */
  datatype Error =
    | RuntimeError(message: string)  // `git` exited non-zero
    | ValueError(message: string)    // configured target is not major.minor
    | IndexError                     // a tuple or list index out of range

  /** The captured outcome of a `git` subprocess: its exit status and
      its decoded standard output and standard error. */
  datatype GitOutput = GitOutput(exitCode: int, stdout: string, stderr: string)

  const GitFailureLead: string := "Error getting tag list from git: '"

  /** The message both scripts raise when `git` exits non-zero. */
  function GitFailureMessage(stderr: string): (message: string)
    ensures |message| == |GitFailureLead| + |stderr| + 1
    ensures message[..|GitFailureLead|] == GitFailureLead
    ensures message[|GitFailureLead|..] == stderr + "'"
  {
    GitFailureLead + stderr + "'"
  }

  const SetVariablePrefix: string := "##vso[task.setvariable variable="

  /** The logging command that sets pipeline variable `name` to `value`. */
  function SetVariableCommand(name: string, value: string): string {
    SetVariablePrefix + name + "]" + value
  }
}

=== FILE: target_config.dfy ===
/** Reading the targeted release line: `get_target_major_minor_from_config`
    in `get_release_version.py`, applied to the `[version] target` value. */
module TargetConfig {
  import opened Wrappers
  import opened Text
  import opened Script

  const TargetFormatMessage: string :=
    "Version:Current setting in setup.cfg is not major.minor format"

  /** Split the target on `.` and read the first two pieces as integers.
      Missing pieces (`IndexError`) and non-integers (`ValueError`) are both
      reported as `ValueError`; pieces after the second are ignored. */
  function ParseTarget(target: string): (r: Result<(int, int), Error>)
    ensures r.Failure? ==> r.error == ValueError(TargetFormatMessage)
    ensures r.Success? ==> '.' in target
  {
    var parts := Split(target, '.');
    if |parts| < 2 then
      Failure(ValueError(TargetFormatMessage))
    else
      match (ParseInt(parts[0]), ParseInt(parts[1]))
      case (Some(major), Some(minor)) => Success((major, minor))
      case _ => Failure(ValueError(TargetFormatMessage))
  }

  /** `target` reads as `major.minor`, possibly followed by further
      dot-separated components. */
  ghost predicate Denotes(target: string, major: int, minor: int) {
    exists a: string, b: string, rest: string :: ReadsAs(target, a, b, rest, major, minor)
  }

  /** `target` is `a.b` then `rest`, where `a` reads as `major`, `b` as
      `minor`, and `rest` is empty or starts a further component. */
  predicate ReadsAs(target: string, a: string, b: string, rest: string, major: int, minor: int) {
    && target == a + "." + b + rest
    && ParseInt(a) == Some(major)
    && ParseInt(b) == Some(minor)
    && (rest == "" || rest[0] == '.')
  }

  lemma NoDotInInteger(s: string)
    requires ParseInt(s).Some?
    ensures '.' !in s
  {
  }

  /** Every target accepted denotes the pair returned. */
  lemma ParseTargetSound(target: string)
    requires ParseTarget(target).Success?
    ensures Denotes(target, ParseTarget(target).value.0, ParseTarget(target).value.1)
  {
    var parts := Split(target, '.');
    var rest := if |parts| == 2 then "" else "." + Join(parts[2..], '.');
    assert Join(parts, '.') == parts[0] + "." + Join(parts[1..], '.');
    assert parts[1..][1..] == parts[2..];
    assert Join(parts[1..], '.') == parts[1] + rest;
    assert target == parts[0] + "." + parts[1] + rest;
    assert ReadsAs(target, parts[0], parts[1], rest, ParseTarget(target).value.0, ParseTarget(target).value.1);
  }

  /** Every target that denotes a pair is accepted with that pair: the
      components after the second never matter. */
  lemma ParseTargetComplete(target: string, major: int, minor: int)
    requires Denotes(target, major, minor)
    ensures ParseTarget(target) == Success((major, minor))
  {
    var a: string, b: string, rest: string :| ReadsAs(target, a, b, rest, major, minor);
    var parts := Split(target, '.');
    assert parts == [a] + Split(b + rest, '.') by {
      NoDotInInteger(a);
      assert target == a + ['.'] + (b + rest);
      SplitPrefix(a, b + rest, '.');
    }
    assert Split(b + rest, '.')[0] == b by {
      NoDotInInteger(b);
      SecondComponent(b, rest);
    }
  }

  lemma SecondComponent(b: string, rest: string)
    requires '.' !in b
    requires rest == "" || rest[0] == '.'
    ensures Split(b + rest, '.')[0] == b
  {
    if rest == "" {
      assert b + rest == b;
      SplitNoSep(b, '.');
    } else {
      var tail := rest[1..];
      assert rest == ['.'] + tail;
      assert b + rest == b + ['.'] + tail;
      SplitPrefix(b, tail, '.');
    }
  }

  /** A target with no second component is rejected. */
  lemma ParseTargetNeedsTwoComponents(target: string)
    requires '.' !in target
    ensures ParseTarget(target) == Failure(ValueError(TargetFormatMessage))
  {
  }
}

=== FILE: text.dfy ===
/** Character classes and the few string conversions the scripts rely on:
    Python's `str.split(sep)`, `int(s)` on a decimal literal, and the
    decimal rendering an f-string gives an `int`. */
module Text {
  import opened Wrappers

  /** ASCII decimal digit, the only digits `int()` is modelled to accept. */
  predicate IsDigit(c: char) {
    '0' <= c <= '9'
  }

  predicate AllDigits(s: string) {
    forall k :: 0 <= k < |s| ==> IsDigit(s[k])
  }

  /** The characters Python's `\s` matches in a `str` pattern: the code
      points for which `str.isspace()` holds. */
  predicate IsSpace(c: char) {
    var n := c as int;
    || 9 <= n <= 13
    || 28 <= n <= 32
    || n == 0x85 || n == 0xA0 || n == 0x1680
    || 0x2000 <= n <= 0x200A
    || n == 0x2028 || n == 0x2029 || n == 0x202F || n == 0x205F || n == 0x3000
  }

  /** The characters `\w` matches, restricted to ASCII: letters, digits, `_`. */
  predicate IsWordChar(c: char) {
    || 'a' <= c <= 'z'
    || 'A' <= c <= 'Z'
    || IsDigit(c)
    || c == '_'
  }

  function DigitValue(c: char): (d: nat)
    requires IsDigit(c)
    ensures d < 10
  {
    c as int - '0' as int
  }

  function DigitChar(d: nat): (c: char)
    requires d < 10
    ensures IsDigit(c) && DigitValue(c) == d
  {
    ('0' as int + d) as char
  }

  /** The number a non-empty run of decimal digits denotes (leading zeros allowed). */
  function DigitsValue(s: string): nat
    requires AllDigits(s)
  {
    if |s| == 0 then 0
    else DigitsValue(s[..|s| - 1]) * 10 + DigitValue(s[|s| - 1])
  }

  /** Decimal rendering of a natural number, without leading zeros. */
  function NatToString(n: nat): (s: string)
    ensures 1 <= |s| && AllDigits(s)
    ensures |s| > 1 ==> s[0] != '0'
  {
    if n < 10 then [DigitChar(n)]
    else NatToString(n / 10) + [DigitChar(n % 10)]
  }

  /** Decimal rendering of an integer, as `str(n)` or `f"{n}"` gives it:
      a `-` exactly for a negative number, then the magnitude's digits
      without leading zeros. */
  function IntToString(n: int): (s: string)
    ensures 1 <= |s|
    ensures forall k :: 0 <= k < |s| ==> IsDigit(s[k]) || s[k] == '-'
    ensures
      var d := if n < 0 then s[1..] else s;
      && (s[0] == '-' <==> n < 0)
      && 1 <= |d| && AllDigits(d)
      && (|d| > 1 ==> d[0] != '0')
      && DigitsValue(d) == (if n < 0 then -n else n)
  {
    if n < 0 then
      NatToStringValue(-n);
      var s := "-" + NatToString(-n);
      assert s[1..] == NatToString(-n);
      s
    else
      NatToStringValue(n);
      NatToString(n)
  }

  /** Python's `int(s)` on a string that is an optional sign followed by
      ASCII digits, leading zeros allowed. Every other string is rejected
      in the model (`None`, the `ValueError`); Python itself also accepts
      surrounding whitespace, `_` separators and non-ASCII digits. */
  function ParseInt(s: string): (r: Option<int>)
    ensures r.Some? ==> 1 <= |s| && IsDigit(s[|s| - 1])
    ensures r.Some? ==> forall k :: 0 <= k < |s| ==> IsDigit(s[k]) || s[k] == '-' || s[k] == '+'
    ensures r.Some? ==>
      || (1 <= |s| && AllDigits(s))
      || (2 <= |s| && (s[0] == '+' || s[0] == '-') && AllDigits(s[1..]))
    ensures 1 <= |s| && AllDigits(s) ==> r == Some(DigitsValue(s))
    ensures 2 <= |s| && s[0] == '+' && AllDigits(s[1..]) ==> r == Some(DigitsValue(s[1..]))
    ensures 2 <= |s| && s[0] == '-' && AllDigits(s[1..]) ==> r == Some(-(DigitsValue(s[1..]) as int))
  {
    if |s| >= 2 && (s[0] == '-' || s[0] == '+') && AllDigits(s[1..]) then
      var magnitude: int := DigitsValue(s[1..]);
      Some(if s[0] == '-' then -magnitude else magnitude)
    else if |s| >= 1 && AllDigits(s) then
      Some(DigitsValue(s))
    else
      None
  }

  lemma {:induction false} NatToStringValue(n: nat)
    ensures DigitsValue(NatToString(n)) == n
    decreases n
  {
    if n >= 10 {
      var s := NatToString(n);
      NatToStringValue(n / 10);
      assert s[..|s| - 1] == NatToString(n / 10);
    }
  }

  /** `int(str(n)) == n` for every integer. */
  lemma ParseIntRoundTrip(n: int)
    ensures ParseInt(IntToString(n)) == Some(n)
  {
    if n < 0 {
      NatToStringValue(-n);
      assert IntToString(n)[1..] == NatToString(-n);
    } else {
      NatToStringValue(n);
    }
  }

  /** Python's `sep.join(parts)`. */
  function Join(parts: seq<string>, sep: char): string
  {
    if |parts| == 0 then ""
    else if |parts| == 1 then parts[0]
    else parts[0] + [sep] + Join(parts[1..], sep)
  }

  lemma JoinThree(a: string, b: string, c: string, sep: char)
    ensures Join([a, b, c], sep) == a + [sep] + b + [sep] + c
  {
    assert [a, b, c][1..] == [b, c];
    assert [b, c][1..] == [c];
    assert Join([b, c], sep) == b + [sep] + c;
  }

  /** Python's `s.split(sep)` for a one-character separator: the pieces
      between separators, always at least one. */
  function Split(s: string, sep: char): (parts: seq<string>)
    ensures |parts| >= 1
    ensures forall k :: 0 <= k < |parts| ==> sep !in parts[k]
    ensures |parts| == 1 <==> sep !in s
    ensures Join(parts, sep) == s
    decreases |s|
  {
    if |s| == 0 then [""]
    else if s[0] == sep then
      var rest := Split(s[1..], sep);
      assert s == [sep] + s[1..];
      [""] + rest
    else
      var rest := Split(s[1..], sep);
      assert s == [s[0]] + s[1..];
      JoinConsHead(s[0], rest, sep);
      [[s[0]] + rest[0]] + rest[1..]
  }

  lemma JoinConsHead(c: char, parts: seq<string>, sep: char)
    requires |parts| >= 1
    ensures Join([[c] + parts[0]] + parts[1..], sep) == [c] + Join(parts, sep)
  {
    var q := [[c] + parts[0]] + parts[1..];
    assert q[1..] == parts[1..];
  }

  /** Splitting undoes joining when no piece contains the separator. */
  lemma {:induction false} SplitJoin(parts: seq<string>, sep: char)
    requires |parts| >= 1
    requires forall k :: 0 <= k < |parts| ==> sep !in parts[k]
    ensures Split(Join(parts, sep), sep) == parts
    decreases |parts|
  {
    if |parts| == 1 {
      SplitNoSep(parts[0], sep);
    } else {
      SplitJoin(parts[1..], sep);
      SplitPrefix(parts[0], Join(parts[1..], sep), sep);
      assert parts == [parts[0]] + parts[1..];
    }
  }

  lemma {:induction false} SplitNoSep(s: string, sep: char)
    requires sep !in s
    ensures Split(s, sep) == [s]
  {
  }

  /** A separator-free prefix followed by a separator becomes the first piece. */
  lemma {:induction false} SplitPrefix(p: string, rest: string, sep: char)
    requires sep !in p
    ensures Split(p + [sep] + rest, sep) == [p] + Split(rest, sep)
    decreases |p|
  {
    var s := p + [sep] + rest;
    if |p| == 0 {
      assert s[0] == sep && s[1..] == rest;
    } else {
      assert s[0] == p[0] && s[1..] == p[1..] + [sep] + rest;
      SplitPrefix(p[1..], rest, sep);
      assert [p[0]] + p[1..] == p;
    }
  }
}

=== FILE: wrappers.dfy ===
/** Failure-compatible wrappers used to model Python's exceptions and
    "nothing found" returns as values. */
module Wrappers {

  /** An optional value: `None` where the Python code has no value. */
  datatype Option<+T> = None | Some(value: T) {

    predicate IsFailure() {
      None?
    }

    function PropagateFailure<U>(): Option<U>
      requires None?
    {
      None
    }

    function Extract(): T
      requires Some?
    {
      value
    }
  }

  /** Either a value or the exception the Python code raises instead. */
  datatype Result<+R, +E> = Success(value: R) | Failure(error: E) {

    predicate IsFailure() {
      Failure?
    }

    function PropagateFailure<U>(): Result<U, E>
      requires Failure?
    {
      Failure(error)
    }

    function Extract(): R
      requires Success?
    {
      value
    }
  }
}
